=== FILE: README.md ===
# Warranty payment bookkeeping — a Dafny model

This project models the payment bookkeeping of a staff-facing phone-warranty
registration application: a browser script (`script.js`) and an Express server
(`server.js`) over a MongoDB collection of warranty documents.

It covers:

- the plan price table and the three-installment schedule the registration
  form previews and saves: the price split, due dates a calendar month apart,
  grace dates five days after each due date, and paid installments carried
  over when a warranty is edited;
- the aggregate payment status the form writes on save;
- the age field computed from a Buddhist-era birth date, and the birth date
  the form submits, which aborts the submission when it is an Invalid Date;
- the dashboard's record filter, its remaining-coverage label and its
  paid-installment badge;
- the server's create, update and payment routes over a store of warranties,
  and staff registration with its `STF` staff ids.

Everything is pure functions over immutable datatypes, except for the
schedule builder (`BuildSchedule`, the loop of the submit handler) and the
methods that call it: `SaveSchedule`, `SubmitNew`, `SubmitEdit` and `Submit`. The collection is a map from document
id to `Warranty`. "Now" and the `Math.random()` draw are parameters.

Dates are local calendar records: year, month 0..11, day of month, and
milliseconds into the day. `setMonth`, `setDate` and `setFullYear` are modelled
the way the browser's `Date` computes them. A month past December carries into
the year. A day past the end of its month rolls forward into the next month and
is not clamped, so 31 January 2024 plus one month is 2 March 2024. A day number
and a millisecond time value put dates on one line. The dashboard compares
dates with that time value.

Modules: `Common` (Option, Result), `Calendar`, `Records` (the stored
document, the price table, lookup by installment number), `Installments`,
`Age`, `Dashboard`, `Server`, `Staff`.

Notes on the code:

- `memberId` is unique. The schema declares a unique index on it
  (server.js:22), and the create route rejects a repeated one
  (server.js:144-145). So one member holds at most one warranty.
- Paying one installment never touches the aggregate `payment.status`
  (server.js:196-201). Only a request without an installment number sets it
  to Paid (server.js:202-205). So it stays as it was even after all three
  installments are paid, as `Server.PayingEveryInstallment` shows.
- Due dates come from `setMonth`, which rolls a day past the end of the month
  into the next month instead of clamping it (script.js:817).

## Model

| member | source | states |
|---|---|---|
| Calendar.AddMonths | script.js:495 | `setMonth(getMonth() + k)` keeps the day and time and lands on day number "first day of the month k months on, plus day − 1". When the day fits in that month, the result is that month and day. When it does not, the result is the following month, with the overflow as its day (no clamping). |
| Calendar.AddDays | script.js:496 | `setDate(getDate() + n)` gives a valid date exactly n days later (day number + n, time value + n days), with the same time of day. |
| Calendar.AddOneYear | script.js:808-810 | `setFullYear(year + 1)` keeps month, day and time one year on. A 29 February with no counterpart the next year rolls to 1 March. |
| Calendar.NoClampingAtMonthEnd | script.js:817 | One month after 31 January is 2 March in a leap year and 3 March otherwise. |
| Records.PackagePrice | script.js:7 | The price table: a listed plan costs between 599 and 2399; an unlisted one has no price. |
| Records.FindInstallment | server.js:197 | `schedule.find` by installment number returns the position of the FIRST entry carrying the number, or none exactly when no entry carries it. |
| Installments.SplitIsExact | script.js:488-494 | The three amounts `p/3 + p%3`, `p/3`, `p/3` add up to p. Installments 2 and 3 are equal. The first exceeds them by 0 to 2. |
| Installments.RowFor | script.js:493-497 | Installment i has number i and its amount from the split. It falls due i − 1 months after the start, at the start's time of day (day number "first day of the month i − 1 months on, plus the start's day − 1"). Its grace date is exactly 5 days later. Both dates are valid. |
| Installments.PreviewSchedule | script.js:475-503 | The preview table is shown exactly when the method is Installment and the plan is in the price table (an unlisted plan counts as price 0). It then has 3 rows, and row k is installment k+1 of the price as `RowFor` describes it (number, amount, due date, grace date). The rows sum to the price. |
| Installments.EntryFor | script.js:816-841 | A saved entry has the preview row's number, amount and dates. It is Paid exactly when the previous schedule's first entry with that number was Paid, and then carries that entry's paid date; otherwise it is Pending with no paid date. |
| Installments.BuildSchedule | script.js:812-843 | The submit loop yields exactly the three entries `EntryFor` describes for installments 1, 2, 3, in that order, and their amounts add up to the price. |
| Installments.BuiltAmounts | script.js:813-814 | The built entries are numbered 1, 2, 3. Their amounts sum to the price, installments 2 and 3 are `price / 3`, and the first exceeds them by 0 to 2. |
| Installments.BuiltDates | script.js:816-817 | Built entry k+1 is valid and due k months after the start (day number from the start's day, same time of day). Its grace date is valid and exactly 5 days after the due date. |
| Installments.BuiltStatuses | script.js:819-841 | Built entry k+1 is Paid exactly when the previous schedule's first entry numbered k+1 was Paid, and then carries that paid date. Its number, amount and dates are the preview row's. |
| Installments.CarriedByPosition | script.js:824-831 | Carrying paid state over by number from a schedule numbered 1, 2, 3 keeps each position's status, and each paid position's paid date. |
| Installments.PaidBeforeWithDistinctNumbers | script.js:824-831 | When the old schedule's installment numbers are distinct, entry i is carried as Paid iff some old entry numbered i is Paid. |
| Installments.CoverageFor | script.js:807-810 | A new registration covers from now to the same month, day and time one year on. A 29 February with no counterpart the next year ends on 1 March. An edit keeps the record's start and end. |
| Installments.SaveSchedule | script.js:812-843 | Full Payment saves an empty schedule. Installment saves 3 entries numbered 1, 2, 3 whose rows are the ones the preview computes from the same start date. Each entry is Paid exactly when the carried-over schedule's first entry of that number was Paid, and then carries its paid date. An installment plan missing from the price table is refused. |
| Installments.SavePayment | script.js:845-869 | The aggregate rules on save. Editing Full Payment to Full Payment keeps the old status and paid date. Any other edit is Pending with no paid date. A new registration is Paid now only when marked paid with Full Payment. Marked paid with Installment, only the first entry becomes Paid now and the rest of the schedule is untouched. |
| Installments.SubmitNew | script.js:800-885 | A new registration sends nothing when the birth date is an Invalid Date (see `Age.BirthDate`): `toISOString` throws before the request. Otherwise, and unless an unlisted Installment plan is refused, it sends the birth date, the plan with its looked-up price, coverage from now to one year on, the chosen method, and for Installment the rows the preview computes from now. The aggregate is Paid with paid date now exactly when Full Payment is marked paid, and Pending with no paid date otherwise. With Installment, the first entry is Paid now when marked paid, and every other entry is Pending with no paid date. |
| Installments.SubmitEdit | script.js:800-885 | An edit sends nothing when the birth date is an Invalid Date. For a stored record without a birth date the fields are not refilled (script.js:322) and keep their values from the form's previous use, since edit mode skips the form reset (script.js:367-370); they are blank, and the edit aborts, only on the form's first use after the page loads. Otherwise, and unless an unlisted Installment plan is refused, it sends the birth date, the record's own coverage window and the rows the preview computes from its start. Full Payment kept as Full Payment keeps its status and paid date, and any other edit is Pending with no paid date. Each installment is Paid exactly when the old Installment schedule's first entry of its number was Paid, and then carries its paid date. For an old schedule numbered 1, 2, 3, every installment keeps its status, and each paid one keeps its paid date. |
| Installments.Submit | script.js:800-905 | The submit handler sends nothing exactly when the birth date is an Invalid Date (reported first, as the throw happens whatever the plan) or the Installment plan is unlisted. Otherwise it sends the birth date's time value, the plan with its looked-up price, the coverage window, and the chosen method. The schedule is empty for Full Payment and for Installment has the rows the preview computes from the coverage start. The aggregate status, paid date and installment statuses follow the rules of `SubmitNew` for a new registration and of `SubmitEdit` for an edit. |
| Age.AgeOf | script.js:435-457 | Age is blank exactly when day, month or year is missing (NaN) or zero, or the year is not above 2400 BE. Otherwise it is the number of birthdays reached by today: the birthday in year `yearBE + age` has been reached and the next one has not. It is never negative (0 for a future birth date). |
| Age.AgeExamples | script.js:440-453 | Worked values: before and after the birthday in the current year, and the 2400 BE cut-off. |
| Calendar.ConstructedDay | script.js:875 | `new Date(y, m, d)` with the month carried into the year and a year 0..99 read as 1900..1999. A day of at least 1 lands where `Normalize` rolls it forward from month `m`. A day from 0 down to minus the previous month's length counts back into the previous month. |
| Calendar.DayZeroIsPreviousMonthEnd | script.js:872-875 | A day field of 0 gives the last day of the month before the chosen one. |
| Age.BirthDate | script.js:872-875 | The submitted birth date is an Invalid Date whenever a field is NaN. A valid one is a local midnight whose time value lies within 10^8 days of the epoch. |
| Age.BirthDateRefillRoundTrip | script.js:322-326 | Fields filled from a stored birth date (day, month + 1, year + 543) submit that date's midnight again, for years outside 0..99 that a `Date` can hold. |
| Age.TwoDigitYearsMeanNineteenHundreds | script.js:875 | A Gregorian year 0..99 (543..642 BE) submits the same date as the year 1900 later. |
| Dashboard.RemainingTime | script.js:232-244 | Shows the expired label exactly when no time is left. Otherwise shows days and hours with hours < 24, where `days*24 + hours` is the whole number of hours left (the remaining milliseconds lie in that hour). |
| Dashboard.ExpiryIndicatorsAgree | script.js:219-246 | With one clock reading for both, the status badge and the remaining-time label agree, except when coverage ends at exactly that instant. |
| Dashboard.ApplyFilters | script.js:166-203 | `applyFilters`. Its own contract is only that the result is no longer than the input; `FilterCounts`, `FilterCons` and `FilterDistributes` state what it keeps and in which order. |
| Dashboard.FilterCounts | script.js:171-200 | The filtered list holds each record as many times as the input does when the predicate (search, status, payment) keeps it, and not at all otherwise. |
| Dashboard.FilterCons | script.js:171-200 | Filtering a list decides its first record by the predicate and then filters the rest. A single record is kept exactly when the predicate holds. |
| Dashboard.FilterDistributes | script.js:171-200 | Filtering a concatenation is the concatenation of the filtered parts, so the kept records stay in their original order. |
| Dashboard.ActiveAndExpiredPartition | script.js:182-185 | For any search and payment filter, the "active" and "expired" results together are exactly as many as the unfiltered-status result. |
| Dashboard.PaidCount | script.js:226 | The paid count is the number of positions holding a Paid entry. It is at most the schedule length, equals the length exactly when every entry is Paid, and is 0 exactly when none is. |
| Dashboard.BadgeAgreesWithFilter | script.js:226-229 | On a 3-entry installment schedule, the badge reads complete exactly when the "installment complete" filter keeps the record. |
| Dashboard.BadgeOf | script.js:219-229 | Full Payment shows whether it is Paid. Installment shows the number of Paid positions, at most the schedule length, and reads complete exactly at 3; on 3 entries that is exactly when every entry is Paid. `BadgeAgreesWithFilter` and `EmptyScheduleDisagreement` relate it to the filter. |
| Dashboard.EmptyScheduleDisagreement | script.js:192-196 | An installment record with an empty schedule passes the "installment complete" filter but its badge shows it incomplete. |
| Server.CreateWarranty | server.js:139-156 | Create fails with "member id exists" exactly when the member id is taken. It fails with "serial exists" exactly when the member id is free and the serial is taken. Otherwise the store gains exactly the new record under its new id and nothing else changes. |
| Server.CreatePreservesUniqueKeys | server.js:144-151 | Creating a warranty keeps member ids and serials unique across the store. |
| Server.UpdateWarranty | server.js:170-186 | Update reports not found exactly when no stored record has the id. Otherwise fields present in the body replace the stored ones, absent ones stay, `memberId` never changes, and no other record changes. |
| Server.UpdatesNeverChangeMemberIds | server.js:172-179 | After any sequence of updates, every record keeps its member id and the set of ids is unchanged. |
| Server.UpdateCanDuplicateSerial | server.js:175-179 | The update route does not re-check serials: an update can give a record another record's serial. |
| Server.MarkPaid | server.js:195-206 | A truthy installment number marks the first entry with that number Paid with today's date. Other entries, the row data, and the aggregate status and paid date are unchanged. An unmatched number changes nothing. A missing or zero number sets the aggregate Paid with today's date and leaves the schedule untouched. |
| Server.PatchPayment | server.js:189-213 | Not found exactly when no stored record has the id. Otherwise only that record's payment changes, as MarkPaid says. |
| Server.MarkPaidIdempotent | server.js:195-206 | Paying the same installment (or the full amount) twice equals paying it once with the later date. Status stays Paid and only the paid date is refreshed. |
| Server.InstallmentPaymentsKeepAggregate | server.js:195-201 | Any sequence of installment payments leaves the aggregate status and paid date as they were. |
| Server.PayingEveryInstallment | server.js:195-201 | Paying installments 1, 2 and 3 of a form-built schedule makes every entry Paid while the aggregate status stays unchanged. |
| Staff.Draw | server.js:90 | `Math.floor(Math.random() * 1000)` is the whole number n in 0..999 with n ≤ 1000·random < n + 1. |
| Staff.StaffIdFor | server.js:90 | The staff id is 6 characters: `STF` followed by three digits that read back as the drawn number, zero-padded. |
| Staff.StaffIdRoundTrip | server.js:90 | Parsing a generated staff id gives back the drawn number. |
| Staff.StaffIdInjective | server.js:90 | Different draws give different staff ids. |
| Staff.Register | server.js:69-98 | Registration fails exactly when the username is taken. Otherwise it fails exactly when the password is absent or empty (`required` in the schema, checked when the document is saved). Otherwise it fails exactly when the drawn staff id is already held (unique index on `staffId`). Otherwise it appends exactly the new staff record. Usernames stay unique. |

## Left out

- User-interface plumbing: DOM updates, view switching, modals, receipts and event listeners. These carry no bookkeeping logic.
- `fetch`, the login session in local storage, member search and debouncing. These are network and browser I/O.
- Login and its hard-coded admin fallback. This is an authentication concern with no invariant to state.
- Database connection, static file serving and `app.listen`.
- The `Math.random()` source itself. The draw is a parameter.
- Races between concurrent requests. Each route is modelled as one atomic step.
- Time zones and daylight saving. Dates are local calendar records, and the time value has no offset.
- `toLocaleString` formatting.
- The floating-point `Math.ceil` day count of the remaining-days field. It is display only.
- Smart-card reading and TIS-620 decoding. These are an external agent and a foreign decoder.
- check_member.js is not part of this model. It is a one-off script that prints one member.
- The search clause on `policyNumber`. The warranty schema has no `policyNumber` field, so the server never stores one and the clause never matches. `shopName` is not stored either.
- Case folding beyond ASCII. `toLowerCase` is modelled for `A`–`Z` only. Thai script has no case.
- Customer and device fields that no modelled logic reads (age, device type, colour, capacity, official warranty end). They are dropped from the datatypes. The stored birth date is kept out of `Warranty` too; the form's birth-date fields are a parameter of the submit handler.
- Calendar.ConstructedDay: a day more than one month before the chosen month's first day (below minus the previous month's length) is stated only by the body, not by an ensures.
- Dashboard.ExpiryIndicatorsAgree: the script reads the clock separately for the badge (script.js:219) and the label (script.js:233). The model uses one `now`, so a coverage end falling between the two reads is not modelled.
- Installments.SubmitNew: the coverage start (script.js:808) and the paid date (script.js:863, 866) are separate clock reads. The model uses one `now` for both.
- Age.BirthDate: the time value is local midnight without a time-zone offset, so the 10^8-day limit is applied to local rather than UTC time. `parseInt`'s reading of the field text is the parameter, not modelled.
- Warranty schema defaults applied on insert and Mongoose validation of warranty updates are not modelled. The stored record is the request body.
- Installments.SaveSchedule: refuses an Installment plan missing from the price table. The script would instead send amounts computed from `undefined` (NaN, serialised as null). The plan drop-down only offers listed plans.
- Installments.Submit: inherits the same refusal of an unlisted Installment plan. An Invalid Date of birth is refused first, since the script throws on it whatever the plan.
- Installments.SubmitNew: inherits the same refusal of an unlisted Installment plan.
- Installments.SubmitEdit: inherits the same refusal of an unlisted Installment plan. It also takes the stored coverage window as the form's start and end fields, without the round trip through a date input.
- Installments.SaveSchedule: the preview on screen is computed from the start-date field, which is filled when the form opens (script.js:387, 490). A new registration's saved schedule is dated from the submit time instead (script.js:808). The model relates preview and saved rows at one start date, so it does not capture a registration opened before midnight and submitted after it, where the shown and saved due dates differ.
- Server.UpdateWarranty: an id that is not a valid MongoDB ObjectId makes `findByIdAndUpdate` throw a cast error, answered 400, not 404 (server.js:183-184). Ids here are plain keys, so the model only tells a stored id from an absent one.
- Server.PatchPayment: the same cast error on a malformed id is answered 400 (server.js:210-211). The model does not distinguish it from an absent id.
- Staff.Draw: `Math.random() * 1000` is modelled as an exact real product. In binary64 the product is rounded, so at rounding boundaries its floor can differ by one from the real floor. The range 0..999 holds either way.
- Staff.Register: the password's absence is modelled as `None` and an empty password as the empty string. A validation failure and a duplicate staff id are both answered 500 by the route (server.js:95-96). The model gives them distinct errors.

=== FILE: age.dfy ===
/**
 * The registration form's age field, computed from a birth date entered as
 * day, month and Buddhist-era year.
 */
module Age {
  import opened Common
  import opened Calendar

  /** Buddhist-era years run this far ahead of Gregorian years. */
  const BuddhistEraOffset: int := 543

  /** The highest Buddhist-era year the form refuses to compute an age for: only later years get an age. */
  const CutoffYearBE: int := 2400

  /** (y1, m1, d1) does not come after (y2, m2, d2) in calendar order. */
  predicate NotAfter(y1: int, m1: int, d1: int, y2: int, m2: int, d2: int) {
    y1 < y2 || (y1 == y2 && (m1 < m2 || (m1 == m2 && d1 <= d2)))
  }

  /** The birthday falling in Buddhist-era year `yearBE` has been reached by `today`. */
  predicate BirthdayReached(yearBE: int, month: int, day: int, today: DateTime) {
    NotAfter(yearBE, month, day, today.year + BuddhistEraOffset, today.month + 1, today.day)
  }

  /**
   * `updateAge`: blank (`None`) unless day, month and year are all given,
   * non-zero and the year is after 2400 BE; otherwise the number of
   * birthdays reached by today, never below zero.
   */
  function AgeOf(day: Option<int>, month: Option<int>, yearBE: Option<int>, today: DateTime): (age: Option<nat>)
    ensures age.None? <==> !(Truthy(day) && Truthy(month) && Truthy(yearBE) && yearBE.value > CutoffYearBE)
    ensures age.Some? && age.value > 0 ==>
              && BirthdayReached(yearBE.value + age.value, month.value, day.value, today)
              && !BirthdayReached(yearBE.value + age.value + 1, month.value, day.value, today)
    ensures age.Some? && age.value == 0 ==>
              !BirthdayReached(yearBE.value + 1, month.value, day.value, today)
  {
    if Truthy(day) && Truthy(month) && Truthy(yearBE) && yearBE.value > CutoffYearBE then
      var currentDay := today.day;
      var currentMonth := today.month + 1;
      var currentYearBE := today.year + BuddhistEraOffset;
      var years := currentYearBE - yearBE.value;
      var age := if currentMonth < month.value || (currentMonth == month.value && currentDay < day.value)
                 then years - 1 else years;
      Some(if age >= 0 then age else 0)
    else
      None
  }

  /** Someone born on 20 May 2530 BE is 36 on 10 October 2023 and 35 on 1 May 2023. */
  lemma AgeExamples()
    ensures AgeOf(Some(20), Some(5), Some(2530), DateTime(2023, 9, 10, 0)) == Some(36)
    ensures AgeOf(Some(20), Some(5), Some(2530), DateTime(2023, 4, 1, 0)) == Some(35)
    ensures AgeOf(Some(20), Some(5), Some(2400), DateTime(2023, 4, 1, 0)) == None
  {
  }

  /** The birth-date fields after `parseInt`: `None` is NaN, from a blank or non-numeric field. */
  datatype BirthDateFields = BirthDateFields(day: Option<int>, month: Option<int>, yearBE: Option<int>)

  /**
   * The submitted birth date, `new Date(yearBE - 543, month - 1, day)`, as
   * its time value (local midnight). `None` is an Invalid Date: a NaN field,
   * or a time value beyond `MaxTimeValue`. Its `toISOString` throws.
   */
  function BirthDate(f: BirthDateFields): (t: Option<int>)
    ensures f.day.None? || f.month.None? || f.yearBE.None? ==> t.None?
    ensures t.Some? ==> -MaxTimeValue <= t.value <= MaxTimeValue && t.value % MsPerDay == 0
  {
    if f.day.Some? && f.month.Some? && f.yearBE.Some? then
      var n := ConstructedDay(f.yearBE.value - BuddhistEraOffset, f.month.value - 1, f.day.value);
      if -MaxTimeValue <= n * MsPerDay <= MaxTimeValue then Some(n * MsPerDay) else None
    else
      None
  }

  /**
   * Opening a record for edit fills the fields from the stored date (day,
   * month + 1, year + 543); submitting them gives back that date's midnight,
   * for any year outside 0..99 whose date a `Date` can hold.
   */
  lemma BirthDateRefillRoundTrip(d: DateTime)
    requires Valid(d)
    requires !(0 <= d.year <= 99)
    requires -MaxTimeValue <= DayNumber(d) * MsPerDay <= MaxTimeValue
    ensures BirthDate(BirthDateFields(Some(d.day), Some(d.month + 1), Some(d.year + BuddhistEraOffset)))
            == Some(TimeValue(d) - d.msOfDay)
  {
  }

  /** A Gregorian year 0..99 is read as 1900..1999: 600 BE (year 57) submits the same date as 2500 BE (1957). */
  lemma TwoDigitYearsMeanNineteenHundreds(day: int, month: int, y: int)
    requires 0 <= y <= 99
    ensures BirthDate(BirthDateFields(Some(day), Some(month), Some(y + BuddhistEraOffset)))
            == BirthDate(BirthDateFields(Some(day), Some(month), Some(1900 + y + BuddhistEraOffset)))
  {
  }
}

=== FILE: calendar.dfy ===
/**
 * Local calendar arithmetic as the browser's `Date` object performs it.
 *
 * A date is a calendar record (year, month 0..11, day of month, milliseconds
 * into the day). `setMonth`, `setDate` and `setFullYear` all rebuild the date
 * from (year, month, day) the way ECMAScript's MakeDay does: an out-of-range
 * month carries into the year, and a day past the end of its month rolls
 * forward into the following month(s). Nothing is clamped.
 */
module Calendar {

  const MsPerHour: int := 3600000
  const MsPerDay: int := 86400000
  /** Day numbers count from 1 January of this year. */
  const EpochYear: int := 1970

  predicate IsLeapYear(y: int) {
    y % 4 == 0 && (y % 100 != 0 || y % 400 == 0)
  }

  /** Length of month `m` (0 = January) of year `y`. */
  function DaysInMonth(y: int, m: int): (n: int)
    requires 0 <= m < 12
    ensures 28 <= n <= 31
  {
    if m == 1 then (if IsLeapYear(y) then 29 else 28)
    else if m == 3 || m == 5 || m == 8 || m == 10 then 30
    else 31
  }

  /** A month counted absolutely: `year * 12 + month`. */
  function MonthIndex(y: int, m: int): int {
    y * 12 + m
  }

  function YearOf(mi: int): int { mi / 12 }
  function MonthOf(mi: int): (m: int)
    ensures 0 <= m < 12
  {
    mi % 12
  }

  lemma MonthIndexJoin(mi: int)
    ensures MonthIndex(YearOf(mi), MonthOf(mi)) == mi
  {
  }

  lemma MonthIndexSplit(y: int, m: int)
    requires 0 <= m < 12
    ensures YearOf(MonthIndex(y, m)) == y && MonthOf(MonthIndex(y, m)) == m
  {
  }

  /** Length of the month with absolute index `mi`. */
  function MonthLength(mi: int): (n: int)
    ensures 28 <= n <= 31
  {
    DaysInMonth(YearOf(mi), MonthOf(mi))
  }

  /** The absolute index of January of the epoch year. */
  const EpochMonth: int := EpochYear * 12

  /**
   * Day number of the first day of the month with absolute index `mi`:
   * each month starts where the previous one ends.
   */
  function FirstDayOfMonth(mi: int): int
    decreases if mi >= EpochMonth then mi - EpochMonth else EpochMonth - mi
  {
    if mi == EpochMonth then 0
    else if mi > EpochMonth then FirstDayOfMonth(mi - 1) + MonthLength(mi - 1)
    else FirstDayOfMonth(mi + 1) - MonthLength(mi)
  }

  /** Consecutive months are adjacent on the day line. */
  lemma NextMonthStart(mi: int)
    ensures FirstDayOfMonth(mi + 1) == FirstDayOfMonth(mi) + MonthLength(mi)
  {
  }

  datatype DateTime = DateTime(year: int, month: int, day: int, msOfDay: int)

  /** A well-formed calendar date: month 0..11, day inside its month, time inside the day. */
  predicate Valid(d: DateTime) {
    && 0 <= d.month < 12
    && 1 <= d.day <= DaysInMonth(d.year, d.month)
    && 0 <= d.msOfDay < MsPerDay
  }

  function MonthIndexOf(d: DateTime): int {
    MonthIndex(d.year, d.month)
  }

  /** Days since 1 January of the epoch year. */
  function DayNumber(d: DateTime): int {
    FirstDayOfMonth(MonthIndexOf(d)) + d.day - 1
  }

  /** Milliseconds since the epoch in local time (the `Date` time value, no offset). */
  function TimeValue(d: DateTime): int {
    DayNumber(d) * MsPerDay + d.msOfDay
  }

  /**
   * ECMAScript MakeDay: the date `d` days into the month with absolute
   * index `mi`, rolling a day past the end of the month into the next.
   */
  function Normalize(mi: int, d: int, ms: int): (r: DateTime)
    requires d >= 1
    requires 0 <= ms < MsPerDay
    ensures Valid(r)
    ensures r.msOfDay == ms
    ensures DayNumber(r) == FirstDayOfMonth(mi) + d - 1
    ensures MonthIndexOf(r) >= mi
    decreases d
  {
    if d <= MonthLength(mi) then
      MonthIndexJoin(mi);
      DateTime(YearOf(mi), MonthOf(mi), d, ms)
    else
      NextMonthStart(mi);
      Normalize(mi + 1, d - MonthLength(mi), ms)
  }

  /** `date.setMonth(date.getMonth() + k)`: same day and time, `k` months on. */
  function AddMonths(d: DateTime, k: int): (r: DateTime)
    requires Valid(d)
    ensures Valid(r)
    ensures r.msOfDay == d.msOfDay
    ensures DayNumber(r) == FirstDayOfMonth(MonthIndexOf(d) + k) + d.day - 1
    ensures d.day <= MonthLength(MonthIndexOf(d) + k) ==>
              MonthIndexOf(r) == MonthIndexOf(d) + k && r.day == d.day
    ensures d.day > MonthLength(MonthIndexOf(d) + k) ==>
              MonthIndexOf(r) == MonthIndexOf(d) + k + 1
              && r.day == d.day - MonthLength(MonthIndexOf(d) + k)
  {
    var mi := MonthIndexOf(d) + k;
    if d.day > MonthLength(mi) then
      var rest := d.day - MonthLength(mi);
      assert rest <= 3 <= MonthLength(mi + 1);
      MonthIndexJoin(mi + 1);
      assert Normalize(mi, d.day, d.msOfDay) == Normalize(mi + 1, rest, d.msOfDay)
        == DateTime(YearOf(mi + 1), MonthOf(mi + 1), rest, d.msOfDay);
      Normalize(mi, d.day, d.msOfDay)
    else
      MonthIndexJoin(mi);
      Normalize(mi, d.day, d.msOfDay)
  }

  /** `date.setDate(date.getDate() + n)`: exactly `n` days later, same time of day. */
  function AddDays(d: DateTime, n: nat): (r: DateTime)
    requires Valid(d)
    ensures Valid(r)
    ensures r.msOfDay == d.msOfDay
    ensures DayNumber(r) == DayNumber(d) + n
    ensures TimeValue(r) == TimeValue(d) + n * MsPerDay
  {
    Normalize(MonthIndexOf(d), d.day + n, d.msOfDay)
  }

  /** `date.setFullYear(date.getFullYear() + 1)`: the same month and day one year on. */
  function AddOneYear(d: DateTime): (r: DateTime)
    requires Valid(d)
    ensures Valid(r)
    ensures r.msOfDay == d.msOfDay
    ensures d.day <= DaysInMonth(d.year + 1, d.month) ==>
              r == DateTime(d.year + 1, d.month, d.day, d.msOfDay)
    ensures d.day > DaysInMonth(d.year + 1, d.month) ==>
              r == DateTime(d.year + 1, 2, 1, d.msOfDay)
  {
    MonthIndexSplit(d.year + 1, d.month);
    AddMonths(d, 12)
  }

  /** `new Date(y, ...)` reads a year 0..99 as 1900..1999. */
  function FullYear(y: int): int {
    if 0 <= y <= 99 then 1900 + y else y
  }

  /**
   * The day number of `new Date(y, m, d)`: a month outside 0..11 carries into
   * the year and a day outside its month counts on from the month's first
   * day, in either direction, as MakeDay does. A day of at least 1 lands
   * where `Normalize` rolls it; a day from 0 down to minus the previous
   * month's length counts back into that previous month.
   */
  function ConstructedDay(y: int, m: int, d: int): (n: int)
    ensures d >= 1 ==> n == DayNumber(Normalize(MonthIndex(FullYear(y), m), d, 0))
    ensures 1 - MonthLength(MonthIndex(FullYear(y), m) - 1) <= d < 1 ==>
              n == DayNumber(Normalize(MonthIndex(FullYear(y), m) - 1, d + MonthLength(MonthIndex(FullYear(y), m) - 1), 0))
  {
    NextMonthStart(MonthIndex(FullYear(y), m) - 1);
    FirstDayOfMonth(MonthIndex(FullYear(y), m)) + d - 1
  }

  /** Day 0 of a month is the last day of the month before: `new Date(1987, 5, 0)` is 31 May 1987. */
  lemma DayZeroIsPreviousMonthEnd(y: int, m: int)
    ensures var prev := MonthIndex(FullYear(y), m) - 1;
            ConstructedDay(y, m, 0) == DayNumber(DateTime(YearOf(prev), MonthOf(prev), MonthLength(prev), 0))
  {
    var prev := MonthIndex(FullYear(y), m) - 1;
    MonthIndexJoin(prev);
    NextMonthStart(prev);
  }

  /** The largest time value a `Date` holds: 10^8 days either side of the epoch. */
  const MaxTimeValue: int := 100000000 * MsPerDay

  /** Where the month-end day lands one month on: 31 January 2024 becomes 2 March 2024. */
  lemma NoClampingAtMonthEnd()
    ensures AddMonths(DateTime(2024, 0, 31, 0), 1) == DateTime(2024, 2, 2, 0)
    ensures AddMonths(DateTime(2023, 0, 31, 0), 1) == DateTime(2023, 2, 3, 0)
  {
    var leap, plain := MonthIndex(2024, 1), MonthIndex(2023, 1);
    MonthIndexSplit(2024, 1);
    MonthIndexSplit(2024, 2);
    assert MonthLength(leap) == 29;
    MonthIndexSplit(2023, 1);
    MonthIndexSplit(2023, 2);
    assert MonthLength(plain) == 28;
  }
}

=== FILE: common.dfy ===
/** Option and Result wrappers shared by every module of the model. */
module Common {

  /** A value that may be absent (a JavaScript `undefined`/`null` field). */
  datatype Option<+T> = None | Some(value: T)

  /** The outcome of a handler: the new state, or the error it responds with. */
  datatype Result<+T, +E> = Ok(value: T) | Err(error: E)

  /**
   * A number that may be absent used as a JavaScript condition: absent
   * (`undefined`, `null`, or NaN from `parseInt`) and 0 are falsy.
   */
  predicate Truthy(x: Option<int>) {
    x.Some? && x.value != 0
  }
}

=== FILE: dashboard.dfy ===
/**
 * The dashboard: the record filter, the remaining-coverage label and the
 * paid-installment badge.
 */
module Dashboard {
  import opened Calendar
  import opened Records

  /** `new Date(end) < new Date()`. */
  predicate IsExpired(end: DateTime, now: DateTime) {
    TimeValue(end) < TimeValue(now)
  }

  /** The "remaining coverage" cell: whole days and hours left, or the expired label. */
  datatype Remaining = ExpiredLabel | Left(days: nat, hours: nat)

  /**
   * Whole hours left, split into days and hours. The label shows expired as
   * soon as no time at all is left.
   */
  function RemainingTime(end: DateTime, now: DateTime): (r: Remaining)
    ensures r.ExpiredLabel? <==> TimeValue(end) <= TimeValue(now)
    ensures r.Left? ==> r.hours < 24
    ensures r.Left? ==>
              var totalHours := r.days * 24 + r.hours;
              && totalHours * MsPerHour <= TimeValue(end) - TimeValue(now)
              && TimeValue(end) - TimeValue(now) < (totalHours + 1) * MsPerHour
  {
    var diffMs := TimeValue(end) - TimeValue(now);
    if diffMs > 0 then
      var totalHours := diffMs / MsPerHour;
      Left(totalHours / 24, totalHours % 24)
    else
      ExpiredLabel
  }

  /**
   * The status badge and the remaining-time label agree, except at the very
   * millisecond the coverage ends, where the badge still reads active.
   */
  lemma ExpiryIndicatorsAgree(end: DateTime, now: DateTime)
    ensures IsExpired(end, now) ==> RemainingTime(end, now).ExpiredLabel?
    ensures RemainingTime(end, now).Left? ==> !IsExpired(end, now)
    ensures RemainingTime(end, now).ExpiredLabel? && !IsExpired(end, now) ==> TimeValue(end) == TimeValue(now)
  {
  }

  /** ASCII upper-case letters lowered, as `toLowerCase` does; Thai has no case. */
  function LowerChar(c: char): char {
    if 'A' <= c <= 'Z' then (c as int + 32) as char else c
  }

  function Lower(s: string): (r: string)
    ensures |r| == |s|
    ensures forall i :: 0 <= i < |s| ==> r[i] == LowerChar(s[i])
  {
    seq(|s|, i requires 0 <= i < |s| => LowerChar(s[i]))
  }

  predicate OccursAt(s: string, sub: string, i: int) {
    0 <= i && i + |sub| <= |s| && s[i..i + |sub|] == sub
  }

  /** `s.includes(sub)`. */
  predicate Contains(s: string, sub: string) {
    exists i | 0 <= i <= |s| :: OccursAt(s, sub, i)
  }

  function FullName(r: Warranty): string {
    r.customer.firstName + " " + r.customer.lastName
  }

  /** The search box: an empty term matches everything. */
  predicate MatchesSearch(r: Warranty, searchInput: string) {
    var term := Lower(searchInput);
    || term == []
    || Contains(Lower(r.memberId), term)
    || Contains(Lower(FullName(r)), term)
    || Contains(r.customer.phone, term)
  }

  /** The coverage-status drop-down. */
  datatype StatusFilter = AllStatuses | ActiveOnly | ExpiredOnly

  /** The payment drop-down. */
  datatype PaymentFilter = AllPayments | FullOnly | InstallmentOnly | InstallmentComplete

  predicate AllPaid(schedule: seq<ScheduleEntry>) {
    forall k :: 0 <= k < |schedule| ==> schedule[k].status == Paid
  }

  predicate StatusPasses(r: Warranty, f: StatusFilter, now: DateTime) {
    match f
    case AllStatuses => true
    case ActiveOnly => !IsExpired(r.warrantyDates.end, now)
    case ExpiredOnly => IsExpired(r.warrantyDates.end, now)
  }

  predicate PaymentPasses(r: Warranty, f: PaymentFilter) {
    match f
    case AllPayments => true
    case FullOnly => r.payment.payMethod == FullPayment
    case InstallmentOnly => r.payment.payMethod == Installment
    case InstallmentComplete => r.payment.payMethod == Installment && AllPaid(r.payment.schedule)
  }

  /** The predicate `applyFilters` hands to `Array.prototype.filter`. */
  predicate Keep(r: Warranty, searchInput: string, sf: StatusFilter, pf: PaymentFilter, now: DateTime) {
    MatchesSearch(r, searchInput) && StatusPasses(r, sf, now) && PaymentPasses(r, pf)
  }

  /**
   * `applyFilters`: the records the predicate keeps, in their original order
   * (`FilterDistributes`), each as often as it occurs in the list
   * (`FilterCounts`).
   */
  function ApplyFilters(records: seq<Warranty>, searchInput: string, sf: StatusFilter, pf: PaymentFilter, now: DateTime)
    : (kept: seq<Warranty>)
    ensures |kept| <= |records|
  {
    if |records| == 0 then []
    else
      var rest := ApplyFilters(records[1..], searchInput, sf, pf, now);
      if Keep(records[0], searchInput, sf, pf, now) then [records[0]] + rest else rest
  }

  /** Each kept record occurs as often as in the input; every other record not at all. */
  lemma {:induction false} FilterCounts(records: seq<Warranty>, searchInput: string, sf: StatusFilter, pf: PaymentFilter, now: DateTime)
    ensures forall r :: multiset(ApplyFilters(records, searchInput, sf, pf, now))[r]
                        == (if Keep(r, searchInput, sf, pf, now) then multiset(records)[r] else 0)
  {
    if |records| > 0 {
      FilterCounts(records[1..], searchInput, sf, pf, now);
      assert records == [records[0]] + records[1..];
    }
  }

  /**
   * Filtering a list with a first record decides that record, then filters
   * the rest; with `rest == []`, a single record is kept exactly when the
   * predicate holds.
   */
  lemma FilterCons(x: Warranty, rest: seq<Warranty>, searchInput: string, sf: StatusFilter, pf: PaymentFilter, now: DateTime)
    ensures ApplyFilters([x] + rest, searchInput, sf, pf, now)
            == (if Keep(x, searchInput, sf, pf, now) then [x] else []) + ApplyFilters(rest, searchInput, sf, pf, now)
  {
    assert ([x] + rest)[1..] == rest;
  }

  /**
   * Filtering a concatenation filters each part and keeps them in order; with
   * the one-record case of `FilterCons`, this fixes the order of the kept
   * records.
   */
  lemma {:induction false} FilterDistributes(a: seq<Warranty>, b: seq<Warranty>, searchInput: string, sf: StatusFilter, pf: PaymentFilter, now: DateTime)
    ensures ApplyFilters(a + b, searchInput, sf, pf, now)
            == ApplyFilters(a, searchInput, sf, pf, now) + ApplyFilters(b, searchInput, sf, pf, now)
  {
    if |a| == 0 {
      assert a + b == b;
    } else {
      var x, t := a[0], a[1..];
      var h := if Keep(x, searchInput, sf, pf, now) then [x] else [];
      var ft, fb := ApplyFilters(t, searchInput, sf, pf, now), ApplyFilters(b, searchInput, sf, pf, now);
      assert ApplyFilters(a, searchInput, sf, pf, now) == h + ft by {
        assert a == [x] + t;
        FilterCons(x, t, searchInput, sf, pf, now);
      }
      assert ApplyFilters(a + b, searchInput, sf, pf, now) == h + (ft + fb) by {
        assert a + b == [x] + (t + b);
        FilterCons(x, t + b, searchInput, sf, pf, now);
        FilterDistributes(t, b, searchInput, sf, pf, now);
      }
      assert h + (ft + fb) == (h + ft) + fb;
    }
  }

  /** "Active" and "expired" split every other choice of filters in two. */
  lemma {:induction false} ActiveAndExpiredPartition(records: seq<Warranty>, searchInput: string, pf: PaymentFilter, now: DateTime)
    ensures |ApplyFilters(records, searchInput, ActiveOnly, pf, now)| + |ApplyFilters(records, searchInput, ExpiredOnly, pf, now)|
            == |ApplyFilters(records, searchInput, AllStatuses, pf, now)|
  {
    if |records| > 0 {
      ActiveAndExpiredPartition(records[1..], searchInput, pf, now);
    }
  }

  /** Positions of the paid entries of a schedule. */
  function PaidPositions(schedule: seq<ScheduleEntry>): set<int> {
    set k | 0 <= k < |schedule| && schedule[k].status == Paid
  }

  /** `schedule.filter(s => s.status === 'Paid').length`: how many entries are paid. */
  function PaidCount(schedule: seq<ScheduleEntry>): (n: nat)
    ensures n == |PaidPositions(schedule)|
    ensures n <= |schedule|
    ensures n == |schedule| <==> AllPaid(schedule)
    ensures n == 0 <==> forall k :: 0 <= k < |schedule| ==> schedule[k].status != Paid
  {
    if |schedule| == 0 then
      assert PaidPositions(schedule) == {};
      0
    else
      var last := |schedule| - 1;
      var init := schedule[..last];
      assert forall k :: 0 <= k < last ==> init[k] == schedule[k];
      assert PaidPositions(schedule)
             == PaidPositions(init) + (if schedule[last].status == Paid then {last} else {});
      PaidCount(init) + (if schedule[last].status == Paid then 1 else 0)
  }

  /** The payment cell: Full Payment shows paid or pending; Installment shows "paid n/3". */
  datatype PaymentBadge = FullBadge(paid: bool) | InstallmentBadge(paidCount: nat, complete: bool)

  const InstallmentCount: nat := 3

  /**
   * The badge of a payment: Full Payment shows whether it is Paid; Installment
   * shows how many entries are Paid, complete exactly at 3 of 3.
   */
  function BadgeOf(p: Payment): (b: PaymentBadge)
    ensures b.FullBadge? <==> p.payMethod == FullPayment
    ensures b.FullBadge? ==> (b.paid <==> p.status == Paid)
    ensures b.InstallmentBadge? ==> b.paidCount == |PaidPositions(p.schedule)| && b.paidCount <= |p.schedule|
    ensures b.InstallmentBadge? ==> (b.complete <==> b.paidCount == InstallmentCount)
    ensures b.InstallmentBadge? && |p.schedule| == InstallmentCount ==>
              (b.complete <==> forall k :: 0 <= k < |p.schedule| ==> p.schedule[k].status == Paid)
  {
    if p.payMethod == FullPayment then FullBadge(p.status == Paid)
    else
      var n := PaidCount(p.schedule);
      InstallmentBadge(n, n == InstallmentCount)
  }

  /**
   * On a three-installment schedule the badge reads complete exactly when the
   * "installment complete" filter keeps the record; on a schedule of any
   * other length the two can disagree.
   */
  lemma BadgeAgreesWithFilter(r: Warranty)
    requires r.payment.payMethod == Installment && |r.payment.schedule| == InstallmentCount
    ensures BadgeOf(r.payment).complete <==> PaymentPasses(r, InstallmentComplete)
  {
  }

  /** An installment record with no schedule passes the filter yet shows 0 of 3 paid. */
  lemma EmptyScheduleDisagreement(r: Warranty)
    requires r.payment.payMethod == Installment && r.payment.schedule == []
    ensures PaymentPasses(r, InstallmentComplete) && !BadgeOf(r.payment).complete
  {
  }
}

=== FILE: installments.dfy ===
/**
 * The registration form's payment logic: splitting a plan price into three
 * installments, dating them, carrying paid installments over on edit, and the
 * aggregate payment status written when the form is saved.
 */
module Installments {
  import opened Common
  import opened Calendar
  import opened Records
  import Age

  /** Installment `i` of `price`: a third each, rounded down, the first also taking the remainder. */
  function InstallmentAmount(price: nat, i: int): int {
    if i == 1 then price / 3 + price % 3 else price / 3
  }

  /** The three amounts add back up to the price, and the first exceeds the others by at most 2. */
  lemma SplitIsExact(price: nat)
    ensures InstallmentAmount(price, 1) + InstallmentAmount(price, 2) + InstallmentAmount(price, 3) == price
    ensures InstallmentAmount(price, 2) == InstallmentAmount(price, 3)
    ensures 0 <= InstallmentAmount(price, 1) - InstallmentAmount(price, 2) <= 2
    ensures 3 * InstallmentAmount(price, 2) <= price < 3 * InstallmentAmount(price, 2) + 3
  {
  }

  /** Installment `i` falls due `i - 1` months after the start date. */
  function DueDate(start: DateTime, i: int): (due: DateTime)
    requires Valid(start)
    ensures Valid(due)
  {
    AddMonths(start, i - 1)
  }

  /** The late-payment deadline: five days after the due date. */
  function GraceDate(due: DateTime): (grace: DateTime)
    requires Valid(due)
    ensures Valid(grace)
  {
    AddDays(due, 5)
  }

  /** Installment `i` of the table: its share of the price, its due date and its grace date. */
  function RowFor(price: nat, start: DateTime, i: int): (row: ScheduleRow)
    requires Valid(start)
    ensures row.no == i && row.amount == InstallmentAmount(price, i)
    ensures Valid(row.dueDate) && Valid(row.graceDate)
    ensures row.dueDate.msOfDay == start.msOfDay
    ensures DayNumber(row.dueDate) == FirstDayOfMonth(MonthIndexOf(start) + i - 1) + start.day - 1
    ensures DayNumber(row.graceDate) == DayNumber(row.dueDate) + 5
    ensures TimeValue(row.graceDate) == TimeValue(row.dueDate) + 5 * MsPerDay
  {
    ScheduleRow(i, InstallmentAmount(price, i), DueDate(start, i), GraceDate(DueDate(start, i)))
  }

  /**
   * The preview shown while filling in the form: a table of three rows when
   * the method is Installment and the plan has a (positive) price, and no
   * table otherwise (an unlisted plan counts as price 0).
   */
  function PreviewSchedule(plan: string, payMethod: Method, start: DateTime): (rows: Option<seq<ScheduleRow>>)
    requires Valid(start)
    ensures rows.Some? <==> payMethod == Installment && PackagePrice(plan).Some?
    ensures rows.Some? ==> |rows.value| == 3
    ensures rows.Some? ==>
              rows.value[0].amount + rows.value[1].amount + rows.value[2].amount == PackagePrice(plan).value
    ensures rows.Some? ==> forall k :: 0 <= k < 3 ==>
              && rows.value[k].no == k + 1
              && DayNumber(rows.value[k].graceDate) == DayNumber(rows.value[k].dueDate) + 5
    ensures rows.Some? ==> forall k :: 0 <= k < 3 ==> rows.value[k] == RowFor(PackagePrice(plan).value, start, k + 1)
  {
    var price := match PackagePrice(plan) case Some(p) => p case None => 0;
    if payMethod == Installment && price > 0 then
      SplitIsExact(price);
      Some(Rows(price, start))
    else
      None
  }

  /** The three rows of the table for `price`, installment `k + 1` at position `k`. */
  function Rows(price: nat, start: DateTime): (rows: seq<ScheduleRow>)
    requires Valid(start)
    ensures |rows| == 3
    ensures forall k :: 0 <= k < 3 ==> rows[k] == RowFor(price, start, k + 1)
  {
    seq(3, k requires 0 <= k < 3 => RowFor(price, start, k + 1))
  }

  /**
   * Whether the previous schedule (present only when an Installment warranty
   * is being edited) has, as its first entry numbered `i`, a paid one.
   */
  predicate PaidBefore(previous: Option<seq<ScheduleEntry>>, i: int) {
    match previous
    case None => false
    case Some(prior) =>
      match FindInstallment(prior, i)
      case None => false
      case Some(k) => prior[k].status == Paid
  }

  /** The paid date recorded on that previous entry. */
  function PaidDateBefore(previous: Option<seq<ScheduleEntry>>, i: int): Option<DateTime>
    requires PaidBefore(previous, i)
  {
    var k := FindInstallment(previous.value, i).value;
    previous.value[k].paidDate
  }

  /** Entry `i` of a freshly built schedule, its status carried over from `previous`. */
  function EntryFor(price: nat, start: DateTime, previous: Option<seq<ScheduleEntry>>, i: int): (e: ScheduleEntry)
    requires Valid(start)
    ensures RowOf(e) == RowFor(price, start, i)
    ensures e.status == Paid <==> PaidBefore(previous, i)
    ensures e.paidDate == (if PaidBefore(previous, i) then PaidDateBefore(previous, i) else None)
  {
    var due := DueDate(start, i);
    if PaidBefore(previous, i) then
      ScheduleEntry(i, InstallmentAmount(price, i), due, GraceDate(due), Paid, PaidDateBefore(previous, i))
    else
      ScheduleEntry(i, InstallmentAmount(price, i), due, GraceDate(due), Pending, None)
  }

  /** Old installments are numbered 1, 2, 3 in order, as the form always numbers them. */
  predicate StandardNumbering(schedule: seq<ScheduleEntry>) {
    |schedule| == 3 && forall k :: 0 <= k < 3 ==> schedule[k].installmentNo == k + 1
  }

  /** `schedule` holds, in order, the entries numbered 1, 2, 3 that the submit loop builds. */
  predicate BuiltFrom(schedule: seq<ScheduleEntry>, price: nat, start: DateTime, previous: Option<seq<ScheduleEntry>>)
    requires Valid(start)
  {
    |schedule| == 3 && forall k :: 0 <= k < 3 ==> schedule[k] == EntryFor(price, start, previous, k + 1)
  }

  /**
   * The submit handler's loop: exactly the entries numbered 1, 2, 3 as
   * `EntryFor` describes them, so their amounts split the price. The lemmas
   * below spell out the dates and the carried-over statuses.
   */
  method BuildSchedule(price: nat, start: DateTime, previous: Option<seq<ScheduleEntry>>)
    returns (schedule: seq<ScheduleEntry>)
    requires Valid(start)
    ensures BuiltFrom(schedule, price, start, previous)
    ensures StandardNumbering(schedule)
    ensures schedule[0].amount + schedule[1].amount + schedule[2].amount == price
  {
    schedule := [];
    var i := 1;
    while i <= 3
      invariant 1 <= i <= 4
      invariant |schedule| == i - 1
      invariant forall k :: 0 <= k < i - 1 ==> schedule[k] == EntryFor(price, start, previous, k + 1)
    {
      schedule := schedule + [EntryFor(price, start, previous, i)];
      i := i + 1;
    }
    BuiltAmounts(schedule, price, start, previous);
  }

  /** The built entries are numbered 1, 2, 3 and their amounts split the price exactly. */
  lemma BuiltAmounts(schedule: seq<ScheduleEntry>, price: nat, start: DateTime, previous: Option<seq<ScheduleEntry>>)
    requires Valid(start) && BuiltFrom(schedule, price, start, previous)
    ensures StandardNumbering(schedule)
    ensures schedule[0].amount + schedule[1].amount + schedule[2].amount == price
    ensures schedule[1].amount == schedule[2].amount == price / 3
    ensures 0 <= schedule[0].amount - schedule[1].amount <= 2
  {
    SplitIsExact(price);
    assert RowOf(schedule[0]) == RowFor(price, start, 1);
    assert RowOf(schedule[1]) == RowFor(price, start, 2);
    assert RowOf(schedule[2]) == RowFor(price, start, 3);
  }

  /** Built entry `k + 1` falls due `k` months after the start; its grace date is five days later. */
  lemma BuiltDates(schedule: seq<ScheduleEntry>, price: nat, start: DateTime, previous: Option<seq<ScheduleEntry>>)
    requires Valid(start) && BuiltFrom(schedule, price, start, previous)
    ensures forall k :: 0 <= k < 3 ==>
              && Valid(schedule[k].dueDate)
              && schedule[k].dueDate.msOfDay == start.msOfDay
              && DayNumber(schedule[k].dueDate) == FirstDayOfMonth(MonthIndexOf(start) + k) + start.day - 1
    ensures forall k :: 0 <= k < 3 ==>
              && Valid(schedule[k].graceDate)
              && TimeValue(schedule[k].graceDate) == TimeValue(schedule[k].dueDate) + 5 * MsPerDay
  {
    forall k | 0 <= k < 3
      ensures Valid(schedule[k].dueDate) && schedule[k].dueDate.msOfDay == start.msOfDay
      ensures DayNumber(schedule[k].dueDate) == FirstDayOfMonth(MonthIndexOf(start) + k) + start.day - 1
      ensures Valid(schedule[k].graceDate)
      ensures TimeValue(schedule[k].graceDate) == TimeValue(schedule[k].dueDate) + 5 * MsPerDay
    {
      assert schedule[k].dueDate == AddMonths(start, k);
      assert RowOf(schedule[k]) == RowFor(price, start, k + 1);
    }
  }

  /** Built entry `k + 1` carries the previous schedule's paid state for that number, and the preview row's data. */
  lemma BuiltStatuses(schedule: seq<ScheduleEntry>, price: nat, start: DateTime, previous: Option<seq<ScheduleEntry>>)
    requires Valid(start) && BuiltFrom(schedule, price, start, previous)
    ensures forall k :: 0 <= k < 3 ==>
              && (schedule[k].status == Paid <==> PaidBefore(previous, k + 1))
              && schedule[k].paidDate == (if PaidBefore(previous, k + 1) then PaidDateBefore(previous, k + 1) else None)
    ensures forall k :: 0 <= k < 3 ==> RowOf(schedule[k]) == RowFor(price, start, k + 1)
  {
    forall k | 0 <= k < 3
      ensures schedule[k] == EntryFor(price, start, previous, k + 1)
    {
    }
  }

  /** In a schedule numbered 1, 2, 3 the entry numbered `k + 1` is found at position `k`. */
  lemma StandardNumberingLookup(schedule: seq<ScheduleEntry>, k: int)
    requires StandardNumbering(schedule) && 0 <= k < 3
    ensures FindInstallment(schedule, k + 1) == Some(k)
  {
    assert schedule[k].installmentNo == k + 1;
  }

  /**
   * Carrying paid state over by number from a schedule numbered 1, 2, 3
   * keeps each position's status, and each paid position's paid date.
   */
  lemma CarriedByPosition(schedule: seq<ScheduleEntry>, prior: seq<ScheduleEntry>)
    requires |schedule| >= 3 && StandardNumbering(prior)
    requires forall k :: 0 <= k < 3 ==>
               && (schedule[k].status == Paid <==> PaidBefore(Some(prior), k + 1))
               && schedule[k].paidDate == (if PaidBefore(Some(prior), k + 1) then PaidDateBefore(Some(prior), k + 1) else None)
    ensures forall k :: 0 <= k < 3 ==>
              && schedule[k].status == prior[k].status
              && (schedule[k].status == Paid ==> schedule[k].paidDate == prior[k].paidDate)
  {
    forall k | 0 <= k < 3
      ensures schedule[k].status == prior[k].status
      ensures schedule[k].status == Paid ==> schedule[k].paidDate == prior[k].paidDate
    {
      StandardNumberingLookup(prior, k);
    }
  }

  /** With distinct installment numbers, "the first entry numbered i is Paid" is "some entry numbered i is Paid". */
  lemma {:induction false} PaidBeforeWithDistinctNumbers(prior: seq<ScheduleEntry>, i: int)
    requires forall j, k :: 0 <= j < k < |prior| ==> prior[j].installmentNo != prior[k].installmentNo
    ensures PaidBefore(Some(prior), i) <==>
              exists k :: 0 <= k < |prior| && prior[k].installmentNo == i && prior[k].status == Paid
  {
    match FindInstallment(prior, i)
    case None =>
    case Some(f) =>
      if exists k :: 0 <= k < |prior| && prior[k].installmentNo == i && prior[k].status == Paid {
        var k :| 0 <= k < |prior| && prior[k].installmentNo == i && prior[k].status == Paid;
        assert k == f;
      }
  }

  /** How the form is being saved: a new registration (with its "mark as paid" box) or an edit. */
  datatype SaveMode = Register(markPaid: bool) | Edit(previous: Warranty)

  /** Why the form sends nothing: an Installment plan without a price, or an Invalid Date of birth. */
  datatype SaveError = UnknownPlan | InvalidBirthDate

  /** The parts of the request body the form computes: birth date (as a time value), package, coverage window, payment. */
  datatype Draft = Draft(birthDate: int, package: Package, coverage: Coverage, payment: Payment)

  /** The schedule an edit carries paid installments over from: only an Installment warranty's. */
  function CarrySource(mode: SaveMode): Option<seq<ScheduleEntry>> {
    if mode.Edit? && mode.previous.payment.payMethod == Installment then
      Some(mode.previous.payment.schedule)
    else
      None
  }

  /** A new registration starts now and ends one year on; an edit keeps the record's window. */
  function CoverageFor(mode: SaveMode, now: DateTime): (c: Coverage)
    requires Valid(now)
    requires mode.Edit? ==> Valid(mode.previous.warrantyDates.start)
    ensures Valid(c.start)
    ensures mode.Register? ==> c.start == now && Valid(c.end) && c.end.year == now.year + 1
    ensures mode.Register? && now.day <= DaysInMonth(now.year + 1, now.month) ==>
              c.end == DateTime(now.year + 1, now.month, now.day, now.msOfDay)
    ensures mode.Register? && now.day > DaysInMonth(now.year + 1, now.month) ==>
              c.end == DateTime(now.year + 1, 2, 1, now.msOfDay)
    ensures mode.Edit? ==> c == mode.previous.warrantyDates
  {
    match mode
    case Register(_) => Coverage(now, AddOneYear(now))
    case Edit(previous) => previous.warrantyDates
  }

  /**
   * A saved schedule matches the preview computed from `start`: empty for
   * Full Payment, and for Installment numbered 1, 2, 3 with exactly the
   * preview's rows.
   */
  predicate ShowsPreview(plan: string, payMethod: Method, start: DateTime, schedule: seq<ScheduleEntry>)
    requires Valid(start)
  {
    && (payMethod == FullPayment ==> schedule == [])
    && (payMethod == Installment ==>
          && PreviewSchedule(plan, payMethod, start).Some?
          && StandardNumbering(schedule)
          && forall k :: 0 <= k < 3 ==> RowOf(schedule[k]) == PreviewSchedule(plan, payMethod, start).value[k])
  }

  /**
   * The schedule the submit handler sends: empty for Full Payment, and for
   * Installment the three rows the preview computes from the same start
   * date, each Paid exactly when
   * the carried-over schedule's entry of that number was Paid. An Installment
   * plan the price table does not list is refused.
   */
  method SaveSchedule(plan: string, payMethod: Method, start: DateTime, carry: Option<seq<ScheduleEntry>>)
    returns (r: Result<seq<ScheduleEntry>, SaveError>)
    requires Valid(start)
    ensures r.Err? <==> payMethod == Installment && PackagePrice(plan).None?
    ensures r.Err? ==> r.error == UnknownPlan
    ensures r.Ok? ==> ShowsPreview(plan, payMethod, start, r.value)
    ensures r.Ok? && payMethod == Installment ==> forall k :: 0 <= k < 3 ==>
              && (r.value[k].status == Paid <==> PaidBefore(carry, k + 1))
              && r.value[k].paidDate == (if PaidBefore(carry, k + 1) then PaidDateBefore(carry, k + 1) else None)
  {
    if payMethod == FullPayment {
      return Ok([]);
    }
    if PackagePrice(plan).None? {
      return Err(UnknownPlan);
    }
    var schedule := BuildSchedule(PackagePrice(plan).value, start, carry);
    BuiltStatuses(schedule, PackagePrice(plan).value, start, carry);
    r := Ok(schedule);
  }

  /**
   * The aggregate payment state the submit handler sends with a schedule.
   * Pending with no paid date, except that an edit keeping Full Payment keeps
   * the prior status and paid date, and a new registration marked paid is
   * Paid now (Full Payment) or has its first installment Paid now
   * (Installment), the rest of the schedule untouched.
   */
  function SavePayment(payMethod: Method, schedule: seq<ScheduleEntry>, mode: SaveMode, now: DateTime): (p: Payment)
    requires payMethod == Installment ==> |schedule| == 3
    ensures p.payMethod == payMethod
    ensures mode.Edit? && payMethod == FullPayment && mode.previous.payment.payMethod == FullPayment ==>
              p.status == mode.previous.payment.status && p.paidDate == mode.previous.payment.paidDate
    ensures mode.Edit? && !(payMethod == FullPayment && mode.previous.payment.payMethod == FullPayment) ==>
              p.status == Pending && p.paidDate == None
    ensures mode.Register? ==>
              && (p.status == Paid <==> mode.markPaid && payMethod == FullPayment)
              && p.paidDate == (if p.status == Paid then Some(now) else None)
    ensures |p.schedule| == |schedule|
    ensures forall k :: 0 < k < |schedule| ==> p.schedule[k] == schedule[k]
    ensures |schedule| > 0 ==> RowOf(p.schedule[0]) == RowOf(schedule[0])
    ensures mode.Register? && mode.markPaid && payMethod == Installment ==>
              p.schedule[0].status == Paid && p.schedule[0].paidDate == Some(now)
    ensures !(mode.Register? && mode.markPaid && payMethod == Installment) ==> p.schedule == schedule
  {
    var pending := Payment(payMethod, Pending, None, schedule);
    match mode
    case Edit(previous) =>
      if payMethod == FullPayment && previous.payment.payMethod == FullPayment then
        pending.(status := previous.payment.status, paidDate := previous.payment.paidDate)
      else
        pending
    case Register(markPaid) =>
      if markPaid && payMethod == FullPayment then
        pending.(status := Paid, paidDate := Some(now))
      else if markPaid then
        pending.(schedule := schedule[0 := schedule[0].(status := Paid, paidDate := Some(now))])
      else
        pending
  }

  /**
   * What every save sends: the plan with its looked-up price, the coverage
   * window, the chosen method, and a schedule matching the preview computed
   * from the coverage start.
   */
  predicate SendsForm(plan: string, payMethod: Method, coverage: Coverage, d: Draft)
    requires Valid(coverage.start)
  {
    && d.package == Package(plan, PackagePrice(plan))
    && d.coverage == coverage
    && d.payment.payMethod == payMethod
    && ShowsPreview(plan, payMethod, coverage.start, d.payment.schedule)
  }

  /**
   * Submitting a new registration: coverage from now for one year, and
   * nothing sent when the birth date is an Invalid Date. The
   * aggregate is Paid now only for Full Payment marked paid, Pending with no
   * paid date otherwise; with Installment only the first installment can be
   * Paid (now, when marked paid), the other two are Pending with no paid date.
   */
  method SubmitNew(plan: string, payMethod: Method, markPaid: bool, dob: Age.BirthDateFields, now: DateTime)
    returns (r: Result<Draft, SaveError>)
    requires Valid(now)
    ensures r.Err? <==> (payMethod == Installment && PackagePrice(plan).None?) || Age.BirthDate(dob).None?
    ensures r.Err? ==> (r.error == InvalidBirthDate <==> Age.BirthDate(dob).None?)
    ensures r.Ok? ==> Some(r.value.birthDate) == Age.BirthDate(dob)
    ensures r.Ok? ==> SendsForm(plan, payMethod, Coverage(now, AddOneYear(now)), r.value)
    ensures r.Ok? ==>
              && (r.value.payment.status == Paid <==> markPaid && payMethod == FullPayment)
              && r.value.payment.paidDate == (if markPaid && payMethod == FullPayment then Some(now) else None)
    ensures r.Ok? && payMethod == Installment ==>
              && r.value.payment.schedule[0].status == (if markPaid then Paid else Pending)
              && r.value.payment.schedule[0].paidDate == (if markPaid then Some(now) else None)
              && r.value.payment.schedule[1].status == Pending && r.value.payment.schedule[1].paidDate == None
              && r.value.payment.schedule[2].status == Pending && r.value.payment.schedule[2].paidDate == None
  {
    var birthDate := Age.BirthDate(dob);
    if birthDate.None? {
      return Err(InvalidBirthDate);
    }
    var saved := SaveSchedule(plan, payMethod, now, None);
    if saved.Err? {
      return Err(saved.error);
    }
    var payment := SavePayment(payMethod, saved.value, Register(markPaid), now);
    r := Ok(Draft(birthDate.value, Package(plan, PackagePrice(plan)), Coverage(now, AddOneYear(now)), payment));
  }

  /**
   * Submitting an edit: the record's coverage window is kept, and nothing
   * is sent when the birth date is an Invalid Date. Full Payment
   * kept as Full Payment keeps its status and paid date; any other edit is
   * Pending with no paid date. With Installment each entry carries the paid
   * state of the old Installment schedule's entry of its number, so
   * re-saving a schedule numbered 1, 2, 3 keeps every installment's status
   * and the paid date of each paid one.
   */
  method SubmitEdit(plan: string, payMethod: Method, previous: Warranty, dob: Age.BirthDateFields, now: DateTime)
    returns (r: Result<Draft, SaveError>)
    requires Valid(previous.warrantyDates.start)
    ensures r.Err? <==> (payMethod == Installment && PackagePrice(plan).None?) || Age.BirthDate(dob).None?
    ensures r.Err? ==> (r.error == InvalidBirthDate <==> Age.BirthDate(dob).None?)
    ensures r.Ok? ==> Some(r.value.birthDate) == Age.BirthDate(dob)
    ensures r.Ok? ==> SendsForm(plan, payMethod, previous.warrantyDates, r.value)
    ensures r.Ok? && payMethod == FullPayment && previous.payment.payMethod == FullPayment ==>
              r.value.payment.status == previous.payment.status && r.value.payment.paidDate == previous.payment.paidDate
    ensures r.Ok? && !(payMethod == FullPayment && previous.payment.payMethod == FullPayment) ==>
              r.value.payment.status == Pending && r.value.payment.paidDate == None
    ensures r.Ok? && payMethod == Installment ==> forall k :: 0 <= k < 3 ==>
              && (r.value.payment.schedule[k].status == Paid <==> PaidBefore(CarrySource(Edit(previous)), k + 1))
              && r.value.payment.schedule[k].paidDate
                 == (if PaidBefore(CarrySource(Edit(previous)), k + 1) then PaidDateBefore(CarrySource(Edit(previous)), k + 1) else None)
    ensures (r.Ok? && payMethod == Installment && previous.payment.payMethod == Installment
              && StandardNumbering(previous.payment.schedule)) ==>
              forall k :: 0 <= k < 3 ==>
                && r.value.payment.schedule[k].status == previous.payment.schedule[k].status
                && (r.value.payment.schedule[k].status == Paid ==>
                      r.value.payment.schedule[k].paidDate == previous.payment.schedule[k].paidDate)
  {
    var birthDate := Age.BirthDate(dob);
    if birthDate.None? {
      return Err(InvalidBirthDate);
    }
    var coverage := previous.warrantyDates;
    var saved := SaveSchedule(plan, payMethod, coverage.start, CarrySource(Edit(previous)));
    if saved.Err? {
      return Err(saved.error);
    }
    var schedule := saved.value;
    if payMethod == Installment && previous.payment.payMethod == Installment && StandardNumbering(previous.payment.schedule) {
      CarriedByPosition(schedule, previous.payment.schedule);
    }
    var payment := SavePayment(payMethod, schedule, Edit(previous), now);
    r := Ok(Draft(birthDate.value, Package(plan, PackagePrice(plan)), coverage, payment));
  }

  /**
   * The `warrantyForm` submit handler up to the request it sends: the birth
   * date, the plan and its looked-up price, the coverage window, and the
   * payment state built from the schedule and the save rules above. An
   * Invalid Date of birth makes `toISOString` throw before any request.
   */
  method Submit(plan: string, payMethod: Method, mode: SaveMode, dob: Age.BirthDateFields, now: DateTime)
    returns (r: Result<Draft, SaveError>)
    requires Valid(now)
    requires mode.Edit? ==> Valid(mode.previous.warrantyDates.start)
    ensures r.Err? <==> (payMethod == Installment && PackagePrice(plan).None?) || Age.BirthDate(dob).None?
    ensures r.Err? ==> (r.error == InvalidBirthDate <==> Age.BirthDate(dob).None?)
    ensures r.Ok? ==> Some(r.value.birthDate) == Age.BirthDate(dob)
    ensures r.Ok? ==> SendsForm(plan, payMethod, CoverageFor(mode, now), r.value)
    // a new registration: Paid now only for Full Payment marked paid
    ensures r.Ok? && mode.Register? ==>
              && (r.value.payment.status == Paid <==> mode.markPaid && payMethod == FullPayment)
              && r.value.payment.paidDate == (if mode.markPaid && payMethod == FullPayment then Some(now) else None)
    // a new installment registration has at most its first installment paid
    ensures r.Ok? && mode.Register? && payMethod == Installment ==>
              && r.value.payment.schedule[0].status == (if mode.markPaid then Paid else Pending)
              && r.value.payment.schedule[0].paidDate == (if mode.markPaid then Some(now) else None)
              && r.value.payment.schedule[1].status == Pending && r.value.payment.schedule[1].paidDate == None
              && r.value.payment.schedule[2].status == Pending && r.value.payment.schedule[2].paidDate == None
    // an edit keeps a Full Payment's status and otherwise resets the aggregate
    ensures r.Ok? && mode.Edit? && payMethod == FullPayment && mode.previous.payment.payMethod == FullPayment ==>
              && r.value.payment.status == mode.previous.payment.status
              && r.value.payment.paidDate == mode.previous.payment.paidDate
    ensures r.Ok? && mode.Edit? && !(payMethod == FullPayment && mode.previous.payment.payMethod == FullPayment) ==>
              r.value.payment.status == Pending && r.value.payment.paidDate == None
    // an edit carries each installment's paid state over by number
    ensures r.Ok? && mode.Edit? && payMethod == Installment ==> forall k :: 0 <= k < 3 ==>
              && (r.value.payment.schedule[k].status == Paid <==> PaidBefore(CarrySource(mode), k + 1))
              && r.value.payment.schedule[k].paidDate
                 == (if PaidBefore(CarrySource(mode), k + 1) then PaidDateBefore(CarrySource(mode), k + 1) else None)
    ensures (r.Ok? && mode.Edit? && payMethod == Installment && mode.previous.payment.payMethod == Installment
              && StandardNumbering(mode.previous.payment.schedule)) ==>
              forall k :: 0 <= k < 3 ==>
                && r.value.payment.schedule[k].status == mode.previous.payment.schedule[k].status
                && (r.value.payment.schedule[k].status == Paid ==>
                      r.value.payment.schedule[k].paidDate == mode.previous.payment.schedule[k].paidDate)
  {
    match mode {
      case Register(markPaid) =>
        r := SubmitNew(plan, payMethod, markPaid, dob, now);
      case Edit(previous) =>
        r := SubmitEdit(plan, payMethod, previous, dob, now);
    }
  }
}

=== FILE: records.dfy ===
/**
 * The warranty document as the server stores it, and the price table the
 * registration form reads plan prices from.
 */
module Records {
  import opened Common
  import opened Calendar

  datatype PayStatus = Pending | Paid

  /** The two values of the `paymentMethod` radio: "Full Payment" and "Installment". */
  datatype Method = FullPayment | Installment

  /** One element of `payment.schedule`. */
  datatype ScheduleEntry = ScheduleEntry(
    installmentNo: int,
    amount: int,
    dueDate: DateTime,
    graceDate: DateTime,
    status: PayStatus,
    paidDate: Option<DateTime>)

  /** What an installment is apart from its payment state: number, amount, due and grace dates. */
  datatype ScheduleRow = ScheduleRow(no: int, amount: int, dueDate: DateTime, graceDate: DateTime)

  function RowOf(e: ScheduleEntry): ScheduleRow {
    ScheduleRow(e.installmentNo, e.amount, e.dueDate, e.graceDate)
  }

  /** The `payment` sub-document: method, aggregate status and the schedule. */
  datatype Payment = Payment(
    payMethod: Method,
    status: PayStatus,
    paidDate: Option<DateTime>,
    schedule: seq<ScheduleEntry>)

  datatype Customer = Customer(firstName: string, lastName: string, phone: string, address: string)

  datatype Device = Device(model: string, serial: string, imei: Option<string>, deviceValue: int)

  /** `package`: the plan name and the price looked up for it (absent for an unknown plan). */
  datatype Package = Package(plan: string, price: Option<nat>)

  datatype Coverage = Coverage(start: DateTime, end: DateTime)

  datatype Warranty = Warranty(
    memberId: string,
    staffName: string,
    customer: Customer,
    device: Device,
    package: Package,
    warrantyDates: Coverage,
    payment: Payment)

  /** The `PACKAGE_PRICES` table; `None` for a plan name it does not list. */
  function PackagePrice(plan: string): (price: Option<nat>)
    ensures price.Some? ==> 599 <= price.value <= 2399
  {
    match plan
    case "Plan A" => Some(799)
    case "Plan B" => Some(1499)
    case "Plan C" => Some(1699)
    case "Plan D" => Some(2399)
    case "Plan a" => Some(599)
    case "Plan b" => Some(999)
    case "Plan c" => Some(1299)
    case _ => None
  }

  /**
   * `schedule.find(s => s.installmentNo === n)`: the position of the first
   * entry numbered `n`, or `None` when no entry carries that number.
   */
  function FindInstallment(schedule: seq<ScheduleEntry>, n: int): (r: Option<nat>)
    ensures r.None? <==> forall k :: 0 <= k < |schedule| ==> schedule[k].installmentNo != n
    ensures r.Some? ==> r.value < |schedule| && schedule[r.value].installmentNo == n
    ensures r.Some? ==> forall k :: 0 <= k < r.value ==> schedule[k].installmentNo != n
  {
    if |schedule| == 0 then None
    else if schedule[0].installmentNo == n then Some(0)
    else
      match FindInstallment(schedule[1..], n)
      case None => None
      case Some(k) => Some(k + 1)
  }
}

=== FILE: server.dfy ===
/**
 * The warranty routes of the Express server over the warranty collection,
 * modelled as a map from document id to warranty.
 */
module Server {
  import opened Common
  import opened Calendar
  import opened Records

  type Id = string
  type Store = map<Id, Warranty>

  datatype ApiError = MemberIdExists | SerialExists | DuplicateId | NotFound

  predicate MemberIdTaken(store: Store, memberId: string) {
    exists id :: id in store && store[id].memberId == memberId
  }

  predicate SerialTaken(store: Store, serial: string) {
    exists id :: id in store && store[id].device.serial == serial
  }

  /** No two warranties share a member id or a device serial. */
  predicate UniqueKeys(store: Store) {
    forall a, b :: a in store && b in store && a != b ==>
      store[a].memberId != store[b].memberId && store[a].device.serial != store[b].device.serial
  }

  /**
   * POST /api/warranties: refused when a warranty with the same member id or
   * the same device serial exists (checked in that order); otherwise the
   * store gains exactly the new record under its fresh id. The document id
   * is supplied by the database; inserting an id already present fails.
   */
  function CreateWarranty(store: Store, id: Id, w: Warranty): (r: Result<Store, ApiError>)
    ensures r == Err(MemberIdExists) <==> MemberIdTaken(store, w.memberId)
    ensures r == Err(SerialExists) <==> !MemberIdTaken(store, w.memberId) && SerialTaken(store, w.device.serial)
    ensures r.Ok? <==> !MemberIdTaken(store, w.memberId) && !SerialTaken(store, w.device.serial) && id !in store
    ensures r.Ok? ==> r.value.Keys == store.Keys + {id} && |r.value| == |store| + 1
    ensures r.Ok? ==> r.value[id] == w && forall k :: k in store ==> r.value[k] == store[k]
  {
    if MemberIdTaken(store, w.memberId) then Err(MemberIdExists)
    else if SerialTaken(store, w.device.serial) then Err(SerialExists)
    else if id in store then Err(DuplicateId)
    else Ok(store[id := w])
  }

  /** Creating a warranty keeps member ids and serials unique. */
  lemma CreatePreservesUniqueKeys(store: Store, id: Id, w: Warranty)
    requires UniqueKeys(store)
    requires CreateWarranty(store, id, w).Ok?
    ensures UniqueKeys(CreateWarranty(store, id, w).value)
  {
    var s' := CreateWarranty(store, id, w).value;
    forall a, b | a in s' && b in s' && a != b
      ensures s'[a].memberId != s'[b].memberId && s'[a].device.serial != s'[b].device.serial
    {
      if a == id {
        assert b in store && s'[b] == store[b];
      } else if b == id {
        assert a in store && s'[a] == store[a];
      }
    }
  }

  /** The body of PUT /api/warranties/:id; absent fields are left as they are. */
  datatype UpdateBody = UpdateBody(
    memberId: Option<string>,
    staffName: Option<string>,
    customer: Option<Customer>,
    device: Option<Device>,
    package: Option<Package>,
    warrantyDates: Option<Coverage>,
    payment: Option<Payment>)

  function Pick<T>(field: Option<T>, current: T): T {
    match field
    case Some(v) => v
    case None => current
  }

  /**
   * PUT /api/warranties/:id: not found when the id is absent; otherwise each
   * field present in the body replaces the stored one, except `memberId`,
   * which is stripped from the body and never changes. No other record changes.
   */
  function UpdateWarranty(store: Store, id: Id, body: UpdateBody): (r: Result<Store, ApiError>)
    ensures r.Err? <==> id !in store
    ensures r.Err? ==> r.error == NotFound
    ensures r.Ok? ==> r.value.Keys == store.Keys
    ensures r.Ok? ==> forall k :: k in store && k != id ==> r.value[k] == store[k]
    ensures r.Ok? ==> r.value[id].memberId == store[id].memberId
    ensures r.Ok? ==>
              && (body.staffName.Some? ==> r.value[id].staffName == body.staffName.value)
              && (body.customer.Some? ==> r.value[id].customer == body.customer.value)
              && (body.device.Some? ==> r.value[id].device == body.device.value)
              && (body.package.Some? ==> r.value[id].package == body.package.value)
              && (body.warrantyDates.Some? ==> r.value[id].warrantyDates == body.warrantyDates.value)
              && (body.payment.Some? ==> r.value[id].payment == body.payment.value)
    ensures r.Ok? ==>
              && (body.staffName.None? ==> r.value[id].staffName == store[id].staffName)
              && (body.customer.None? ==> r.value[id].customer == store[id].customer)
              && (body.device.None? ==> r.value[id].device == store[id].device)
              && (body.package.None? ==> r.value[id].package == store[id].package)
              && (body.warrantyDates.None? ==> r.value[id].warrantyDates == store[id].warrantyDates)
              && (body.payment.None? ==> r.value[id].payment == store[id].payment)
  {
    if id !in store then Err(NotFound)
    else
      var w := store[id];
      var updated := Warranty(
        w.memberId,
        Pick(body.staffName, w.staffName),
        Pick(body.customer, w.customer),
        Pick(body.device, w.device),
        Pick(body.package, w.package),
        Pick(body.warrantyDates, w.warrantyDates),
        Pick(body.payment, w.payment));
      Ok(store[id := updated])
  }

  /** Applies a series of updates in order, stopping at the first refusal. */
  function UpdateAll(store: Store, edits: seq<(Id, UpdateBody)>): Result<Store, ApiError>
  {
    if |edits| == 0 then Ok(store)
    else
      match UpdateWarranty(store, edits[0].0, edits[0].1)
      case Err(e) => Err(e)
      case Ok(s) => UpdateAll(s, edits[1..])
  }

  /** However many updates are applied, every record keeps its member id and no record appears or vanishes. */
  lemma {:induction false} UpdatesNeverChangeMemberIds(store: Store, edits: seq<(Id, UpdateBody)>)
    ensures UpdateAll(store, edits).Ok? ==>
              && UpdateAll(store, edits).value.Keys == store.Keys
              && forall k :: k in store ==> UpdateAll(store, edits).value[k].memberId == store[k].memberId
    decreases |edits|
  {
    if |edits| > 0 {
      match UpdateWarranty(store, edits[0].0, edits[0].1)
      case Err(_) =>
      case Ok(s) =>
        UpdatesNeverChangeMemberIds(s, edits[1..]);
    }
  }

  /** The update route does not re-check serials: an edit can give a device another record's serial. */
  lemma UpdateCanDuplicateSerial(store: Store, a: Id, b: Id, d: Device)
    requires a in store && b in store && a != b
    requires d.serial == store[b].device.serial
    ensures UpdateWarranty(store, a, UpdateBody(None, None, None, Some(d), None, None, None)).Ok?
    ensures !UniqueKeys(UpdateWarranty(store, a, UpdateBody(None, None, None, Some(d), None, None, None)).value)
  {
    var s' := UpdateWarranty(store, a, UpdateBody(None, None, None, Some(d), None, None, None)).value;
    assert s'[a].device.serial == s'[b].device.serial;
  }

  /**
   * PATCH /api/warranties/:id/payment on the payment sub-document. With an
   * installment number, the first schedule entry carrying it becomes Paid
   * with today's date and nothing else changes (not even the aggregate
   * status); an unmatched number changes nothing. Without one, the aggregate
   * becomes Paid today and the schedule is untouched.
   */
  function MarkPaid(p: Payment, installmentNo: Option<int>, now: DateTime): (q: Payment)
    ensures q.payMethod == p.payMethod && |q.schedule| == |p.schedule|
    ensures Truthy(installmentNo) ==> q.status == p.status && q.paidDate == p.paidDate
    ensures Truthy(installmentNo) && FindInstallment(p.schedule, installmentNo.value).None? ==> q == p
    ensures Truthy(installmentNo) && FindInstallment(p.schedule, installmentNo.value).Some? ==>
              var k := FindInstallment(p.schedule, installmentNo.value).value;
              && q.schedule[k].status == Paid
              && q.schedule[k].paidDate == Some(now)
              && RowOf(q.schedule[k]) == RowOf(p.schedule[k])
              && forall j :: 0 <= j < |p.schedule| && j != k ==> q.schedule[j] == p.schedule[j]
    ensures !Truthy(installmentNo) ==> q.status == Paid && q.paidDate == Some(now) && q.schedule == p.schedule
  {
    if Truthy(installmentNo) then
      match FindInstallment(p.schedule, installmentNo.value)
      case None => p
      case Some(k) =>
        p.(schedule := p.schedule[k := p.schedule[k].(status := Paid, paidDate := Some(now))])
    else
      p.(status := Paid, paidDate := Some(now))
  }

  /** The route as a whole: not found for an absent id; otherwise only that record's payment changes. */
  function PatchPayment(store: Store, id: Id, installmentNo: Option<int>, now: DateTime): (r: Result<Store, ApiError>)
    ensures r.Err? <==> id !in store
    ensures r.Err? ==> r.error == NotFound
    ensures r.Ok? ==> r.value.Keys == store.Keys
    ensures r.Ok? ==> forall k :: k in store && k != id ==> r.value[k] == store[k]
    ensures r.Ok? ==> r.value[id] == store[id].(payment := MarkPaid(store[id].payment, installmentNo, now))
  {
    if id !in store then Err(NotFound)
    else Ok(store[id := store[id].(payment := MarkPaid(store[id].payment, installmentNo, now))])
  }

  /** Changing statuses leaves installment numbers, hence every lookup by number, as they were. */
  lemma {:induction false} FindIgnoresStatus(s: seq<ScheduleEntry>, t: seq<ScheduleEntry>, n: int)
    requires |s| == |t|
    requires forall j :: 0 <= j < |s| ==> s[j].installmentNo == t[j].installmentNo
    ensures FindInstallment(s, n) == FindInstallment(t, n)
  {
    if |s| > 0 && s[0].installmentNo != n {
      FindIgnoresStatus(s[1..], t[1..], n);
    }
  }

  /**
   * Paying the same installment twice, or the full amount twice, leaves the
   * payment as the second call alone would: statuses stay Paid and only the
   * paid date is refreshed.
   */
  lemma MarkPaidIdempotent(p: Payment, installmentNo: Option<int>, first: DateTime, second: DateTime)
    ensures MarkPaid(MarkPaid(p, installmentNo, first), installmentNo, second) == MarkPaid(p, installmentNo, second)
  {
    if Truthy(installmentNo) {
      var q := MarkPaid(p, installmentNo, first);
      FindIgnoresStatus(p.schedule, q.schedule, installmentNo.value);
    }
  }

  /** Installment payments applied one after another. */
  function PayInstallments(p: Payment, numbers: seq<int>, now: DateTime): Payment
    decreases |numbers|
  {
    if |numbers| == 0 then p
    else PayInstallments(MarkPaid(p, Some(numbers[0]), now), numbers[1..], now)
  }

  /** Paying installments by number never touches the aggregate status or paid date. */
  lemma {:induction false} InstallmentPaymentsKeepAggregate(p: Payment, numbers: seq<int>, now: DateTime)
    requires forall j :: 0 <= j < |numbers| ==> numbers[j] != 0
    ensures PayInstallments(p, numbers, now).status == p.status
    ensures PayInstallments(p, numbers, now).paidDate == p.paidDate
    ensures |PayInstallments(p, numbers, now).schedule| == |p.schedule|
    decreases |numbers|
  {
    if |numbers| > 0 {
      InstallmentPaymentsKeepAggregate(MarkPaid(p, Some(numbers[0]), now), numbers[1..], now);
    }
  }

  /**
   * Paying installments 1, 2 and 3 of a form-built schedule leaves every
   * entry Paid while the aggregate status stays whatever it was (Pending
   * for a registration that was not marked paid).
   */
  lemma PayingEveryInstallment(p: Payment, now: DateTime)
    requires |p.schedule| == 3 && forall k :: 0 <= k < 3 ==> p.schedule[k].installmentNo == k + 1
    ensures |PayInstallments(p, [1, 2, 3], now).schedule| == 3
    ensures forall k :: 0 <= k < 3 ==> PayInstallments(p, [1, 2, 3], now).schedule[k].status == Paid
    ensures PayInstallments(p, [1, 2, 3], now).status == p.status
  {
    var p1 := MarkPaid(p, Some(1), now);
    assert FindInstallment(p.schedule, 1) == Some(0);
    var p2 := MarkPaid(p1, Some(2), now);
    assert p1.schedule[1] == p.schedule[1];
    assert FindInstallment(p1.schedule, 2) == Some(1);
    var p3 := MarkPaid(p2, Some(3), now);
    assert p2.schedule[2] == p.schedule[2];
    assert FindInstallment(p2.schedule, 3) == Some(2);
    assert [1, 2, 3][1..] == [2, 3] && [2, 3][1..] == [3] && [3][1..] == [];
    assert PayInstallments(p, [1, 2, 3], now) == PayInstallments(p1, [2, 3], now);
    assert PayInstallments(p1, [2, 3], now) == PayInstallments(p2, [3], now);
    assert PayInstallments(p2, [3], now) == PayInstallments(p3, [], now) == p3;
  }
}

=== FILE: staff.dfy ===
/** Staff registration: the duplicate-username check and the `STF` staff id. */
module Staff {
  import opened Common

  datatype StaffRecord = StaffRecord(staffId: string, staffName: string, username: string, password: string)

  datatype RegisterError = UsernameExists | PasswordMissing | DuplicateStaffId

  /** `Math.floor(random * 1000)` for a `Math.random()` draw in [0, 1). */
  function Draw(random: real): (n: nat)
    requires 0.0 <= random < 1.0
    ensures n < 1000
    ensures n as real <= random * 1000.0 < n as real + 1.0
  {
    (random * 1000.0).Floor
  }

  predicate IsDigit(c: char) {
    '0' <= c <= '9'
  }

  predicate AllDigits(s: string) {
    forall i :: 0 <= i < |s| ==> IsDigit(s[i])
  }

  /** A run of `z` zero characters. */
  function Zeros(z: nat): (r: string)
    ensures |r| == z && AllDigits(r)
  {
    seq(z, _ => '0')
  }

  function DigitChar(d: nat): (c: char)
    requires d < 10
    ensures IsDigit(c)
  {
    ('0' as int + d) as char
  }

  function DigitValue(c: char): nat
    requires IsDigit(c)
  {
    (c as int - '0' as int) as nat
  }

  /** `n.toString()`: decimal digits without leading zeros. */
  function Decimal(n: nat): (s: string)
    ensures |s| >= 1 && AllDigits(s)
    decreases n
  {
    if n < 10 then [DigitChar(n)] else Decimal(n / 10) + [DigitChar(n % 10)]
  }

  /** The number a string of decimal digits denotes. */
  function DigitsValue(s: string): nat
    requires AllDigits(s)
    decreases |s|
  {
    if |s| == 0 then 0 else DigitsValue(s[..|s| - 1]) * 10 + DigitValue(s[|s| - 1])
  }

  /** `s.padStart(width, fill)`. */
  function PadStart(s: string, width: nat, fill: char): (r: string)
    ensures |r| == if |s| >= width then |s| else width
    ensures r[|r| - |s|..] == s
    ensures forall i :: 0 <= i < |r| - |s| ==> r[i] == fill
  {
    if |s| >= width then s else seq(width - |s|, _ => fill) + s
  }

  lemma {:induction false} DecimalRoundTrip(n: nat)
    ensures DigitsValue(Decimal(n)) == n
    decreases n
  {
    if n >= 10 {
      DecimalRoundTrip(n / 10);
      var s := Decimal(n);
      assert s[..|s| - 1] == Decimal(n / 10);
    }
  }

  lemma {:induction false} DecimalLength(n: nat)
    ensures n < 10 ==> |Decimal(n)| == 1
    ensures n < 100 ==> |Decimal(n)| <= 2
    ensures n < 1000 ==> |Decimal(n)| <= 3
    decreases n
  {
    if n >= 10 {
      DecimalLength(n / 10);
    }
  }

  /** Leading zeros do not change the number. */
  lemma {:induction false} LeadingZeros(z: nat, s: string)
    requires AllDigits(s)
    ensures AllDigits(Zeros(z) + s)
    ensures DigitsValue(Zeros(z) + s) == DigitsValue(s)
    decreases |s|
  {
    var t := Zeros(z) + s;
    assert AllDigits(t);
    if |s| == 0 {
      assert t == Zeros(z);
      ZerosValue(z);
    } else {
      LeadingZeros(z, s[..|s| - 1]);
      assert t[..|t| - 1] == Zeros(z) + s[..|s| - 1];
    }
  }

  lemma {:induction false} ZerosValue(z: nat)
    ensures DigitsValue(Zeros(z)) == 0
    decreases z
  {
    if z > 0 {
      assert Zeros(z)[..z - 1] == Zeros(z - 1);
      ZerosValue(z - 1);
    }
  }

  const StaffPrefix: string := "STF"

  /**
   * `'STF' + n.toString().padStart(3, '0')`: six characters, the prefix then
   * three digits that read back as `n`.
   */
  function StaffIdFor(n: nat): (id: string)
    requires n < 1000
    ensures |id| == 6 && id[..3] == StaffPrefix
    ensures AllDigits(id[3..]) && DigitsValue(id[3..]) == n
  {
    var digits := Decimal(n);
    DecimalLength(n);
    DecimalRoundTrip(n);
    var padded := PadStart(digits, 3, '0');
    assert padded == Zeros(3 - |digits|) + digits;
    LeadingZeros(3 - |digits|, digits);
    var id := StaffPrefix + padded;
    assert id[3..] == padded;
    id
  }

  /** The number a well-formed staff id carries; `None` for any other string. */
  function StaffNumber(id: string): Option<nat> {
    if |id| == 6 && id[..3] == StaffPrefix && AllDigits(id[3..]) then
      Some(DigitsValue(id[3..]))
    else
      None
  }

  /** Reading the number back out of a generated id gives the draw. */
  lemma StaffIdRoundTrip(n: nat)
    requires n < 1000
    ensures StaffNumber(StaffIdFor(n)) == Some(n)
  {
  }

  /** Different draws give different ids, so the only collisions are equal draws. */
  lemma StaffIdInjective(a: nat, b: nat)
    requires a < 1000 && b < 1000 && a != b
    ensures StaffIdFor(a) != StaffIdFor(b)
  {
    StaffIdRoundTrip(a);
    StaffIdRoundTrip(b);
  }

  predicate UsernameTaken(staff: seq<StaffRecord>, username: string) {
    exists i :: 0 <= i < |staff| && staff[i].username == username
  }

  predicate StaffIdTaken(staff: seq<StaffRecord>, staffId: string) {
    exists i :: 0 <= i < |staff| && staff[i].staffId == staffId
  }

  predicate UniqueUsernames(staff: seq<StaffRecord>) {
    forall i, j :: 0 <= i < j < |staff| ==> staff[i].username != staff[j].username
  }

  /** Mongoose's `required` check on a string: absent, `null` and the empty string fail it. */
  predicate PasswordGiven(password: Option<string>) {
    password.Some? && password.value != ""
  }

  /**
   * POST /api/register: refused when the username is taken; otherwise the new
   * staff member is saved with the id drawn from `random`. Saving validates
   * the document first (the password is required) and then inserts it, which
   * the unique index on staff ids refuses if another member already holds
   * the id.
   */
  function Register(staff: seq<StaffRecord>, staffName: string, username: string, password: Option<string>, random: real)
    : (r: Result<seq<StaffRecord>, RegisterError>)
    requires 0.0 <= random < 1.0
    ensures r == Err(UsernameExists) <==> UsernameTaken(staff, username)
    ensures r == Err(PasswordMissing) <==> !UsernameTaken(staff, username) && !PasswordGiven(password)
    ensures r == Err(DuplicateStaffId) <==>
              && !UsernameTaken(staff, username) && PasswordGiven(password)
              && StaffIdTaken(staff, StaffIdFor(Draw(random)))
    ensures r.Ok? ==>
              && PasswordGiven(password)
              && |r.value| == |staff| + 1
              && r.value[..|staff|] == staff
              && r.value[|staff|] == StaffRecord(StaffIdFor(Draw(random)), staffName, username, password.value)
    ensures r.Ok? && UniqueUsernames(staff) ==> UniqueUsernames(r.value)
  {
    if UsernameTaken(staff, username) then Err(UsernameExists)
    else if !PasswordGiven(password) then Err(PasswordMissing)
    else
      var staffId := StaffIdFor(Draw(random));
      if StaffIdTaken(staff, staffId) then Err(DuplicateStaffId)
      else
        var added := staff + [StaffRecord(staffId, staffName, username, password.value)];
        assert forall i :: 0 <= i < |staff| ==> added[i] == staff[i];
        Ok(added)
  }
}
